=== FILE: README.md ===
# Quick-commerce back office: client-side rules, in Dafny

This project models the rules that the quick-commerce management tool
(`app.py`) applies on the client side, around its database calls. Each rule
is a pure function over immutable values, and the properties the tool relies
on are proved about it.

- **Cart** (`Shop`): the customer's cart is a dict from product id to name,
  price and quantity. `add_to_cart` merges a new request into it. A product
  already in the cart has the request added to its quantity, but only while
  the total stays within the stock the shop shows; otherwise the add is
  refused and the cart is left alone. `clear_cart` empties the cart.
  `place_order` refuses an empty cart or a missing customer before it touches
  the store. Otherwise it serialises the cart into `{product_id, quantity}`
  pairs in dict order.
- **Shop view** (`Shop`): the products of warehouse 1 whose inventory row has
  a positive quantity.
- **Inventory ledger** (`Inventory`): the upsert behind "Add/Update Stock"
  creates the (product, warehouse) row, or adds to it.
- **Fleet** (`Fleet`): the assignment pickers offer only `Available` drivers
  and vehicles. The manual status updates need both a selected row and a
  chosen status.
- **Picker labels** (`Labels`): `populate_combobox` shows each row as
  `"<name> (ID: <key>)"` and keeps a dictionary from label back to key.

A Python dict iterates in insertion order, and `place_order` serialises the
cart in that order. So a `Shop.Cart` keeps its keys in insertion order next
to the entries. `Shop.Valid` is the dict's shape: each key is listed once,
the listed keys are exactly the entries, and every quantity is at least 1.

Prices are only carried around: the shop shows them with two decimals, and
the cart copies them. They are modelled as whole hundredths (`Shop.Price`).

Three behaviours of the code shape the model:
- The restock quantity is parsed with `int(...)` and never checked for sign.
  The model's ledger holds signed, unbounded quantities and accepts every
  integer entry. Under that assumption `Inventory.UpsertNonNegative` says
  exactly when stock stays non-negative, and
  `Inventory.NegativeEntryCanEmptyBelowZero` shows a negative entry driving a
  row below zero. Whether the store itself would accept such an entry is not
  modelled (see "Left out").
- `place_order` checks only that the customer label is non-empty. It then
  looks the label up with `dict.get`, so an unknown label would send `None`
  as the customer id. `Shop.OrderRequest` keeps that `Option`.
- Only warehouse 1 is sold from, ordered from or restocked
  (`Inventory.MainWarehouse`). The inventory listing shows every warehouse,
  but it is display only and is not modelled.

## Model

| member | source | states |
|---|---|---|
| Labels.Populate | app.py:39-68 | one label per query row, in row order, each `display (ID: key)`; the dictionary's keys are exactly the shown labels |
| Labels.PopulateEntriesFromRows | app.py:51-59 | every dictionary entry was written by a row showing that label, and maps to that row's key |
| Labels.PopulateLastWins | app.py:59 | a label that no later row repeats resolves to its own row's key (later rows overwrite earlier ones) |
| Labels.Label | app.py:57 | a label starts with the display text, ends with `)`, and is longer than it by the marker, the key text and the parenthesis |
| Labels.ParseLabel | app.py:57 | when a label splits, the parts rebuild it and the key part has no `(` |
| Labels.LabelRoundTrip | app.py:57 | when the key text has no `(`, parsing a built label gives back exactly its display and key text |
| Labels.LabelInjective | app.py:57 | with `(`-free key texts, different (display, key text) pairs give different labels |
| Labels.IntText | app.py:57 | the decimal rendering of an integer id reads back to the same id, and never contains `(` |
| Labels.IntTextInjective | app.py:57 | distinct ids render as distinct texts |
| Labels.PickerResolvesEachRow | app.py:52-59 | with `(`-free, pairwise distinct key texts, the i-th label is in the dictionary and resolves to the i-th row's key |
| Labels.IdPicker | app.py:51-62 | an id picker shows one label per row, every shown label is in the dictionary, and every id it resolves to is some row's id |
| Labels.IdPickerResolvesEachRow | app.py:52-59 | for rows with distinct integer ids, every label resolves to its own row's id |
| Inventory.Upsert | app.py:470-475 | the restocked pair holds its previous quantity (0 if it had no row) plus q, its row exists afterwards, and every other row is unchanged |
| Inventory.RestockAdditive | app.py:470-475 | restocking a then b equals restocking a + b once; the quantity rises by a + b |
| Inventory.RestockCommutes | app.py:470-475 | two restocks give the same ledger in either order |
| Inventory.UpsertNonNegative | app.py:473-475 | a restock keeps all quantities non-negative iff the restocked pair stays non-negative; always when q >= 0 |
| Inventory.NegativeEntryCanEmptyBelowZero | app.py:475 | an entry of -5 on a row holding 2 leaves -3, so the ledger stops being non-negative |
| Inventory.AddUpdateInventory | app.py:450-475 | an empty product or quantity is refused first, then an unknown product label, then non-integer text; otherwise the main-warehouse row of the chosen product grows by the entered amount and nothing else changes |
| Inventory.RestockTargetsPickedProduct | app.py:461-475 | choosing the i-th product label restocks exactly the i-th product at warehouse 1 |
| Shop.ShopView | app.py:195-216 | every shop row is a catalogued product with a positive warehouse-1 quantity, shown with its name, price and that quantity; every such product is shown |
| Shop.ShopViewOneRowPerProduct | app.py:208-214 | the shop shows each product at most once |
| Shop.RestockShowsInShop | app.py:208-214 | after a positive restock at warehouse 1 the product is shown with the new total, and no other product's row changes |
| Shop.OtherWarehouseRestockInvisible | app.py:199-214 | restocking any other warehouse leaves the shop view unchanged |
| Shop.ClearCart | app.py:251-253 | the cleared cart is well-formed and holds no entry |
| Shop.AddToCart | app.py:222-244 | no selection or a cancelled dialog is refused; an add succeeds iff cart quantity + request fits the stock shown; a new product gets name, price and the request and is appended to the order; a known product keeps name, price and position and gains the request; an overflow is refused with the cart and stock quantities; no other entry changes |
| Shop.AddPreservesValid | app.py:231-242 | accepted or refused, an add keeps every key listed once and every quantity at least 1 |
| Shop.AddEntryCount | app.py:234-242 | a new product adds exactly one entry; a repeated product keeps the number of entries |
| Shop.TwoAddsOfOneProduct | app.py:234-240 | adding a and then b of the same product succeeds the second time iff a + b fits the stock, giving a + b; otherwise the cart is unchanged |
| Shop.Lines | app.py:271-273 | one line per key, in key order, carrying that entry's id and quantity |
| Shop.Serialise | app.py:271-273 | one line per cart entry; the i-th line names the i-th product in dict order with that entry's quantity |
| Shop.SerialiseLinesMatchEntries | app.py:271-273 | each line names a cart entry with its quantity, no product appears twice, and every entry has a line |
| Shop.SerialiseRoundTrip | app.py:271-273 | reading quantities back from the lines gives exactly the cart's quantities |
| Shop.PlaceOrder | app.py:255-275 | an empty cart is refused, then an empty customer; otherwise the request targets warehouse 1, carries exactly the serialised cart (one line per entry), and carries the customer id iff the label is in the dictionary |
| Shop.OrderAfterClearRefused | app.py:251-259 | a cleared cart is always refused as empty |
| Shop.OrderNamesPickedCustomer | app.py:261-275 | ordering a non-empty cart for the i-th customer label sends the i-th customer's id and the serialised cart |
| Shop.CartAfterOrder | app.py:281-297 | the cart is emptied only after a committed order, and kept after a refusal or a store error |
| Shop.OrderConsumesCart | app.py:255-297 | after a committed order the cleared cart is refused as empty if ordered again; after a refusal or store error ordering again gives the same outcome |
| Fleet.StatusTextsDistinct | app.py:586 | availability values are stored as distinct texts; only `Available` is stored as "Available" |
| Fleet.DriverPickerRows | app.py:536 | the driver picker, filtering on the stored text "Available", lists exactly the `Available` drivers, by name and id, one row per such driver |
| Fleet.VehiclePickerRows | app.py:537 | the vehicle picker, filtering on the stored text "Available", lists exactly the `Available` vehicles, keyed by vehicle number, one row per such vehicle |
| Fleet.DriverPicker | app.py:536 | the driver picker shows one label per offered row, each resolvable, and every id it resolves to belongs to an `Available` driver |
| Fleet.VehiclePicker | app.py:537 | the vehicle picker shows one label per offered row, each resolvable, and every number it resolves to belongs to an `Available` vehicle |
| Fleet.AssignRequest | app.py:740-749 | a missing driver or vehicle choice is refused (`SelectionMissing`); then a label missing from its dictionary, the `KeyError`, is refused (`UnknownSelection`); otherwise the request carries the two dictionary entries |
| Fleet.AssignPicksAvailable | app.py:740-755 | any request built from the pickers names a driver and a vehicle that were `Available` when the pickers were filled |
| Fleet.SetDriverStatus | app.py:812-813 | only the availability of drivers with the given id changes; ids, names and vehicles stay |
| Fleet.SetVehicleStatus | app.py:841-842 | only the availability of the given vehicle number changes; numbers, locations and drivers stay |
| Fleet.UpdateDriverStatus | app.py:797-813 | refused without a selected driver, then without a chosen status; otherwise applies the update |
| Fleet.UpdateVehicleStatus | app.py:826-842 | refused without a selected vehicle, then without a chosen status; otherwise applies the update |
| Fleet.DriverUpdateThenPicker | app.py:812-818 | after an update, the picker offers the updated driver iff the new status is `Available`, and other drivers as before |
| Fleet.VehicleUpdateThenPicker | app.py:841-847 | after an update, the picker offers the updated vehicle iff the new status is `Available`, and other vehicles as before |

## Left out

- Tkinter widgets, tree views, message boxes and the refresh cascades. These are UI wiring. Note that `refresh_customer_tab_data` also clears the cart, so any restock or new product or customer empties an open cart (app.py:189). The model does not follow that cascade.
- The MySQL connection, cursors, commit/rollback and the connection settings. A store error is the `committed` flag of `Shop.CartAfterOrder`. The connection failure in which `populate_combobox` returns `None` is not modelled.
- The stored procedures `PlaceNewOrder`, `AssignDriverToVehicle` and `GenerateSalesReport`. Their text is not part of this model, so stock decrement, pairing and report contents are not stated.
- `generate_report` (app.py:975-999). Apart from a check that both dates are non-empty, it is a stored-procedure call.
- Plain record creation and listing (`add_product`, `add_customer`, `add_driver`, `add_vehicle`, the `refresh_*_tree` listings). These are single-row inserts and selects with no rule beyond non-empty fields and, in `add_product`, `float()` of the price (app.py:384) and an empty expiry stored as `None` (app.py:373).
- The store's column types and constraints: the Quantity column's type, its range and any UNSIGNED or CHECK constraint are not modelled. An entry the store would reject, and roll back (app.py:483-485), is modelled as accepted. The model also assumes a unique key on (Product_ID, Warehouse_ID), which app.py does not show (the table has its own `Inventory_ID`, app.py:496). Without that key `ON DUPLICATE KEY UPDATE` (app.py:473) never fires and every restock would insert a second row for the pair; `Inventory.Ledger` has one row per pair by its type.
- Concurrency and transaction isolation. The code delegates both to the database.
- Floating-point prices and their `:.2f` formatting. A price is whole hundredths, carried unchanged.
- The JSON text of the order request. The model produces the list of pairs.
- Inventory.AddUpdateInventory: the text of the quantity field is abstracted to blank, not an integer, or a whole number; `int()`'s parsing rules are not modelled.
- Shop.ShopView: the row order of the shop query (no ORDER BY) is not modelled; the view is a set.
- Fleet.DriverPickerRows, Fleet.VehiclePickerRows: the queries have no ORDER BY, so their row order is unspecified; the model takes the rows in table order.
- Shop.AddToCart: the dialog's own range check is a precondition. The quantity is either absent (cancelled) or within 1..stock, as `askinteger` guarantees.
- Tree-view value conversion, such as ids coming back from a row as integers, is not modelled. Ids and vehicle numbers keep their types.

=== FILE: fleet.dfy ===
/**
 * The fleet tab: the assignment pickers, which list only available drivers
 * and vehicles (`refresh_fleet_tab_data`, app.py:531-549), the client side of
 * `assign_driver_vehicle` (app.py:740-766), and the manual status updates
 * (`update_driver_status` / `update_vehicle_status`, app.py:797-853).
 *
 * The pairing itself happens inside the `AssignDriverToVehicle` stored
 * procedure, whose text is not part of this model.
 */
module Fleet {
  import opened Outcomes
  import opened Labels

  /** The driver availability values the forms offer. */
  datatype DriverStatus = Available | OnTrip | Unavailable

  /** The vehicle availability values the forms offer. */
  datatype VehicleStatus = Available | InUse | Maintenance

  /** The text stored in the Availability column. */
  function DriverStatusText(s: DriverStatus): string
  {
    match s
    case Available => "Available"
    case OnTrip => "On-Trip"
    case Unavailable => "Unavailable"
  }

  function VehicleStatusText(s: VehicleStatus): string
  {
    match s
    case Available => "Available"
    case InUse => "In-Use"
    case Maintenance => "Maintenance"
  }

  /** Distinct values are stored as distinct texts, so a filter on the text is a filter on the value. */
  lemma StatusTextsDistinct()
    ensures forall a, b :: DriverStatusText(a) == DriverStatusText(b) ==> a == b
    ensures forall x, y :: VehicleStatusText(x) == VehicleStatusText(y) ==> x == y
    ensures forall a :: DriverStatusText(a) == "Available" <==> a == DriverStatus.Available
    ensures forall x :: VehicleStatusText(x) == "Available" <==> x == VehicleStatus.Available
  {
  }

  /** A DRIVER row. */
  datatype Driver = Driver(id: int, name: string, availability: DriverStatus, vehicle: Option<string>)

  /** A FLEET row, keyed by its vehicle number. */
  datatype Vehicle = Vehicle(number: string, availability: VehicleStatus, location: string, driver: Option<int>)

  // ---------------------------------------------------------------------
  // The assignment pickers
  // ---------------------------------------------------------------------

  /** How many of the drivers are `Available`. */
  function AvailableDriverCount(ds: seq<Driver>): nat
  {
    if |ds| == 0 then 0
    else AvailableDriverCount(ds[..|ds| - 1]) + (if ds[|ds| - 1].availability == DriverStatus.Available then 1 else 0)
  }

  /** How many of the vehicles are `Available`. */
  function AvailableVehicleCount(vs: seq<Vehicle>): nat
  {
    if |vs| == 0 then 0
    else AvailableVehicleCount(vs[..|vs| - 1]) + (if vs[|vs| - 1].availability == VehicleStatus.Available then 1 else 0)
  }

  /**
   * `SELECT Driver_ID, D_Name FROM DRIVER WHERE Availability = 'Available'`,
   * in table order, one row per `Available` driver.  The filter compares
   * the stored text, as the query does.
   */
  function DriverPickerRows(ds: seq<Driver>): (rows: seq<Row<int>>)
    ensures forall row :: row in rows ==> exists d :: d in ds && d.availability == DriverStatus.Available && row == Row(d.name, d.id)
    ensures forall d :: d in ds && d.availability == DriverStatus.Available ==> Row(d.name, d.id) in rows
    ensures |rows| == AvailableDriverCount(ds)
  {
    StatusTextsDistinct();
    if |ds| == 0 then []
    else
      var prev := DriverPickerRows(ds[..|ds| - 1]);
      var d := ds[|ds| - 1];
      assert ds == ds[..|ds| - 1] + [d];
      if DriverStatusText(d.availability) == "Available" then prev + [Row(d.name, d.id)] else prev
  }

  /**
   * `SELECT Vehicle_no FROM FLEET WHERE Availability = 'Available'`: the
   * number is both display and key, one row per `Available` vehicle.  The
   * filter compares the stored text.
   */
  function VehiclePickerRows(vs: seq<Vehicle>): (rows: seq<Row<string>>)
    ensures forall row :: row in rows ==> exists v :: v in vs && v.availability == VehicleStatus.Available && row == Row(v.number, v.number)
    ensures forall v :: v in vs && v.availability == VehicleStatus.Available ==> Row(v.number, v.number) in rows
    ensures |rows| == AvailableVehicleCount(vs)
  {
    StatusTextsDistinct();
    if |vs| == 0 then []
    else
      var prev := VehiclePickerRows(vs[..|vs| - 1]);
      var v := vs[|vs| - 1];
      assert vs == vs[..|vs| - 1] + [v];
      if VehicleStatusText(v.availability) == "Available" then prev + [Row(v.number, v.number)] else prev
  }

  /** A vehicle number is shown as itself in its label. */
  function VehicleNumberText(number: string): string
  {
    number
  }

  /**
   * The driver picker of the assignment form: every shown label can be
   * looked up, and every id it resolves to is an `Available` driver's.
   */
  function DriverPicker(ds: seq<Driver>): (p: Picker<int>)
    ensures |p.values| == |DriverPickerRows(ds)|
    ensures forall i :: 0 <= i < |p.values| ==> p.values[i] in p.data
    ensures forall l :: l in p.data ==>
              exists d :: d in ds && d.id == p.data[l] && d.availability == DriverStatus.Available
  {
    var rows := DriverPickerRows(ds);
    var p := Populate(rows, IntText);
    assert forall l :: l in p.data ==>
             exists d :: d in ds && d.id == p.data[l] && d.availability == DriverStatus.Available by {
      forall l | l in p.data
        ensures exists d :: d in ds && d.id == p.data[l] && d.availability == DriverStatus.Available
      {
        PopulateEntriesFromRows(rows, IntText, l);
        var i :| 0 <= i < |rows| && p.data[l] == rows[i].key;
        assert rows[i] in rows;
      }
    }
    p
  }

  /**
   * The vehicle picker of the assignment form: every shown label can be
   * looked up, and every number it resolves to is an `Available` vehicle's.
   */
  function VehiclePicker(vs: seq<Vehicle>): (p: Picker<string>)
    ensures |p.values| == |VehiclePickerRows(vs)|
    ensures forall i :: 0 <= i < |p.values| ==> p.values[i] in p.data
    ensures forall l :: l in p.data ==>
              exists v :: v in vs && v.number == p.data[l] && v.availability == VehicleStatus.Available
  {
    var rows := VehiclePickerRows(vs);
    var p := Populate(rows, VehicleNumberText);
    assert forall l :: l in p.data ==>
             exists v :: v in vs && v.number == p.data[l] && v.availability == VehicleStatus.Available by {
      forall l | l in p.data
        ensures exists v :: v in vs && v.number == p.data[l] && v.availability == VehicleStatus.Available
      {
        PopulateEntriesFromRows(rows, VehicleNumberText, l);
        var i :| 0 <= i < |rows| && p.data[l] == rows[i].key;
        assert rows[i] in rows;
      }
    }
    p
  }

  datatype AssignError =
    | SelectionMissing   // a driver or a vehicle was not chosen
    | UnknownSelection   // a chosen label is not a key of its picker's dictionary

  /** The driver id and vehicle number `assign_driver_vehicle` passes to the stored procedure. */
  function AssignRequest(driverText: string, vehicleText: string,
                         driverData: map<string, int>, vehicleData: map<string, string>): (r: Result<(int, string), AssignError>)
    ensures driverText == "" || vehicleText == "" ==> r == Err(SelectionMissing)
    ensures driverText != "" && vehicleText != "" && (driverText !in driverData || vehicleText !in vehicleData) ==>
              r == Err(UnknownSelection)
    ensures r.Ok? <==> driverText != "" && vehicleText != "" && driverText in driverData && vehicleText in vehicleData
    ensures r.Ok? ==> r.value == (driverData[driverText], vehicleData[vehicleText])
  {
    if driverText == "" || vehicleText == "" then Err(SelectionMissing)
    else if driverText !in driverData || vehicleText !in vehicleData then Err(UnknownSelection)
    else Ok((driverData[driverText], vehicleData[vehicleText]))
  }

  /**
   * Whatever labels are chosen from pickers filled from the current tables,
   * the request names a driver and a vehicle that were `Available` when the
   * pickers were filled.
   */
  lemma AssignPicksAvailable(ds: seq<Driver>, vs: seq<Vehicle>, driverText: string, vehicleText: string)
    ensures var r := AssignRequest(driverText, vehicleText, DriverPicker(ds).data, VehiclePicker(vs).data);
            r.Ok? ==>
              && (exists d :: d in ds && d.id == r.value.0 && d.availability == DriverStatus.Available)
              && (exists v :: v in vs && v.number == r.value.1 && v.availability == VehicleStatus.Available)
  {
  }

  // ---------------------------------------------------------------------
  // Manual status updates
  // ---------------------------------------------------------------------

  datatype UpdateRefusal =
    | NothingSelected  // no row was selected in the list
    | NoStatusChosen   // the status dropdown is empty

  /** `UPDATE DRIVER SET Availability = s WHERE Driver_ID = id`. */
  function SetDriverStatus(ds: seq<Driver>, id: int, s: DriverStatus): (r: seq<Driver>)
    ensures |r| == |ds|
    ensures forall i :: 0 <= i < |ds| ==>
              && r[i].id == ds[i].id && r[i].name == ds[i].name && r[i].vehicle == ds[i].vehicle
              && r[i].availability == (if ds[i].id == id then s else ds[i].availability)
  {
    seq(|ds|, i requires 0 <= i < |ds| => if ds[i].id == id then ds[i].(availability := s) else ds[i])
  }

  /** `UPDATE FLEET SET Availability = s WHERE Vehicle_no = number`. */
  function SetVehicleStatus(vs: seq<Vehicle>, number: string, s: VehicleStatus): (r: seq<Vehicle>)
    ensures |r| == |vs|
    ensures forall i :: 0 <= i < |vs| ==>
              && r[i].number == vs[i].number && r[i].location == vs[i].location && r[i].driver == vs[i].driver
              && r[i].availability == (if vs[i].number == number then s else vs[i].availability)
  {
    seq(|vs|, i requires 0 <= i < |vs| => if vs[i].number == number then vs[i].(availability := s) else vs[i])
  }

  /** `update_driver_status`: refused unless a driver is selected and a status chosen. */
  function UpdateDriverStatus(ds: seq<Driver>, selected: Option<int>, status: Option<DriverStatus>): (r: Result<seq<Driver>, UpdateRefusal>)
    ensures selected.None? ==> r == Err(NothingSelected)
    ensures selected.Some? && status.None? ==> r == Err(NoStatusChosen)
    ensures r.Ok? <==> selected.Some? && status.Some?
    ensures r.Ok? ==> r.value == SetDriverStatus(ds, selected.value, status.value)
  {
    if selected.None? then Err(NothingSelected)
    else if status.None? then Err(NoStatusChosen)
    else Ok(SetDriverStatus(ds, selected.value, status.value))
  }

  /** `update_vehicle_status`: refused unless a vehicle is selected and a status chosen. */
  function UpdateVehicleStatus(vs: seq<Vehicle>, selected: Option<string>, status: Option<VehicleStatus>): (r: Result<seq<Vehicle>, UpdateRefusal>)
    ensures selected.None? ==> r == Err(NothingSelected)
    ensures selected.Some? && status.None? ==> r == Err(NoStatusChosen)
    ensures r.Ok? <==> selected.Some? && status.Some?
    ensures r.Ok? ==> r.value == SetVehicleStatus(vs, selected.value, status.value)
  {
    if selected.None? then Err(NothingSelected)
    else if status.None? then Err(NoStatusChosen)
    else Ok(SetVehicleStatus(vs, selected.value, status.value))
  }

  /** Some driver with this id is offered by the assignment picker. */
  ghost predicate DriverOffered(ds: seq<Driver>, id: int)
  {
    exists row :: row in DriverPickerRows(ds) && row.key == id
  }

  ghost predicate VehicleOffered(vs: seq<Vehicle>, number: string)
  {
    exists row :: row in VehiclePickerRows(vs) && row.key == number
  }

  /**
   * After a driver's status update the picker offers that driver exactly when
   * the new status is `Available`, and offers every other driver exactly as
   * before.
   */
  lemma DriverUpdateThenPicker(ds: seq<Driver>, id: int, s: DriverStatus, other: int)
    requires exists d :: d in ds && d.id == id
    requires other != id
    ensures DriverOffered(SetDriverStatus(ds, id, s), id) <==> s == DriverStatus.Available
    ensures DriverOffered(SetDriverStatus(ds, id, s), other) <==> DriverOffered(ds, other)
  {
  }

  /**
   * After a vehicle's status update the picker offers that vehicle exactly
   * when the new status is `Available`, and every other vehicle as before.
   */
  lemma VehicleUpdateThenPicker(vs: seq<Vehicle>, number: string, s: VehicleStatus, other: string)
    requires exists v :: v in vs && v.number == number
    requires other != number
    ensures VehicleOffered(SetVehicleStatus(vs, number, s), number) <==> s == VehicleStatus.Available
    ensures VehicleOffered(SetVehicleStatus(vs, number, s), other) <==> VehicleOffered(vs, other)
  {
    var r := SetVehicleStatus(vs, number, s);
    var v :| v in vs && v.number == number;
    var k :| 0 <= k < |vs| && vs[k] == v;
    assert r[k] in r;
    if s == VehicleStatus.Available {
      assert Row(r[k].number, r[k].number) in VehiclePickerRows(r);
    }
  }
}

=== FILE: inventory.dfy ===
/**
 * The inventory ledger and the warehouse manager's "Add/Update Stock" form
 * (`add_update_inventory`, app.py:450-487).
 *
 * The Inventory table holds one quantity per (product, warehouse) pair.  A
 * restock is an upsert: it creates the row with the entered quantity when
 * the pair has none, and otherwise adds the entered quantity to the row's.
 */
module Inventory {
  import opened Outcomes
  import Labels

  type ProductId = int
  type WarehouseId = int

  /** The one warehouse the application stocks and sells from. */
  const MainWarehouse: WarehouseId := 1

  /** Inventory rows: quantity per (product, warehouse); at most one row per pair. */
  type Ledger = map<(ProductId, WarehouseId), int>

  /** The quantity on hand, 0 when the pair has no row. */
  function Stock(l: Ledger, p: ProductId, w: WarehouseId): int
  {
    if (p, w) in l then l[(p, w)] else 0
  }

  predicate NonNegative(l: Ledger)
  {
    forall k :: k in l ==> l[k] >= 0
  }

  /**
   * `INSERT ... ON DUPLICATE KEY UPDATE Quantity = Quantity + VALUES(Quantity)`:
   * the row for (p, w) ends up holding what it held before (nothing counts
   * as 0) plus q, and every other row is left as it was.
   */
  function Upsert(l: Ledger, p: ProductId, w: WarehouseId, q: int): (r: Ledger)
    ensures (p, w) in r
    ensures Stock(r, p, w) == Stock(l, p, w) + q
    ensures (p, w) !in l ==> r[(p, w)] == q
    ensures r.Keys == l.Keys + {(p, w)}
    ensures forall k :: k in l && k != (p, w) ==> r[k] == l[k]
  {
    l[(p, w) := if (p, w) in l then l[(p, w)] + q else q]
  }

  /** Two restocks of the same pair add up: a then b is the same as a + b at once. */
  lemma RestockAdditive(l: Ledger, p: ProductId, w: WarehouseId, a: int, b: int)
    ensures Upsert(Upsert(l, p, w, a), p, w, b) == Upsert(l, p, w, a + b)
    ensures Stock(Upsert(Upsert(l, p, w, a), p, w, b), p, w) == Stock(l, p, w) + a + b
  {
  }

  /** Restocks commute, whether or not they touch the same pair. */
  lemma RestockCommutes(l: Ledger, p1: ProductId, w1: WarehouseId, a: int,
                        p2: ProductId, w2: WarehouseId, b: int)
    ensures Upsert(Upsert(l, p1, w1, a), p2, w2, b) == Upsert(Upsert(l, p2, w2, b), p1, w1, a)
  {
  }

  /**
   * A restock keeps every quantity non-negative exactly when the restocked
   * pair stays non-negative; in particular whenever the entered quantity is.
   */
  lemma UpsertNonNegative(l: Ledger, p: ProductId, w: WarehouseId, q: int)
    requires NonNegative(l)
    ensures NonNegative(Upsert(l, p, w, q)) <==> Stock(l, p, w) + q >= 0
    ensures q >= 0 ==> NonNegative(Upsert(l, p, w, q))
  {
  }

  /** The quantity entry is parsed with `int(...)`, which accepts a sign. */
  lemma NegativeEntryCanEmptyBelowZero()
    ensures Stock(Upsert(map[(1, MainWarehouse) := 2], 1, MainWarehouse, -5), 1, MainWarehouse) == -3
    ensures !NonNegative(Upsert(map[(1, MainWarehouse) := 2], 1, MainWarehouse, -5))
  {
  }

  /** What the quantity field held: nothing, text `int()` rejects, or a whole number. */
  datatype QtyEntry = Blank | NotAnInteger | Whole(n: int)

  datatype RestockError =
    | MissingInput     // product or quantity left empty: refused before any store access
    | UnknownProduct   // the product text is not a key of the picker dictionary
    | InvalidQuantity  // `int(qty)` raises; the upsert is never issued

  /**
   * The form handler: both fields are required, the product label is looked
   * up in the product picker's dictionary, and the upsert always targets the
   * main warehouse.
   */
  function AddUpdateInventory(l: Ledger, productData: map<string, ProductId>,
                              productText: string, qty: QtyEntry): (r: Result<Ledger, RestockError>)
    ensures (productText == "" || qty.Blank?) ==> r == Err(MissingInput)
    ensures productText != "" && !qty.Blank? && productText !in productData ==> r == Err(UnknownProduct)
    ensures productText != "" && productText in productData && qty.NotAnInteger? ==> r == Err(InvalidQuantity)
    ensures r.Ok? <==> productText != "" && productText in productData && qty.Whole?
    ensures r.Ok? ==>
              var p := productData[productText];
              && Stock(r.value, p, MainWarehouse) == Stock(l, p, MainWarehouse) + qty.n
              && r.value.Keys == l.Keys + {(p, MainWarehouse)}
              && forall k :: k in l && k != (p, MainWarehouse) ==> r.value[k] == l[k]
  {
    if productText == "" || qty.Blank? then Err(MissingInput)
    else if productText !in productData then Err(UnknownProduct)
    else if qty.NotAnInteger? then Err(InvalidQuantity)
    else Ok(Upsert(l, productData[productText], MainWarehouse, qty.n))
  }

  /**
   * With the product picker filled from rows with distinct ids, choosing the
   * i-th label restocks exactly the i-th product at the main warehouse.
   */
  lemma RestockTargetsPickedProduct(l: Ledger, rows: seq<Labels.Row<ProductId>>, i: nat, n: int)
    requires i < |rows|
    requires forall a, b :: 0 <= a < b < |rows| ==> rows[a].key != rows[b].key
    ensures var picker := Labels.IdPicker(rows);
            AddUpdateInventory(l, picker.data, picker.values[i], Whole(n))
              == Ok(Upsert(l, rows[i].key, MainWarehouse, n))
  {
    var picker := Labels.IdPicker(rows);
    Labels.IdPickerResolvesEachRow(rows);
    Labels.PickerLabelsNonEmpty(rows, Labels.IntText);
    var text := picker.values[i];
    assert AddUpdateInventory(l, picker.data, text, Whole(n)) == Ok(Upsert(l, picker.data[text], MainWarehouse, n));
  }
}

=== FILE: labels.dfy ===
/**
 * Picker labels (`populate_combobox`, app.py:39-68).
 *
 * A picker query returns rows; for each row the combobox shows the label
 * `"<display> (ID: <key>)"` and remembers, in a dictionary, which key that
 * label stands for.  Later handlers turn the chosen label back into an id by
 * looking it up in that dictionary.  For pickers over distinct integer ids the
 * model proves the lookup recovers the id of the row the label was built
 * from (`IdPickerResolvesEachRow`); the vehicle picker, whose key text is the
 * vehicle number itself, is not covered by that result.
 */
module Labels {
  import opened Outcomes

  /** One row of a picker query: the display column's value and the id column's value. */
  datatype Row<K> = Row(display: string, key: K)

  /** A populated picker: the labels in row order, and the label-to-key dictionary. */
  datatype Picker<K> = Picker(values: seq<string>, data: map<string, K>)

  /** The text that separates the display value from the key in a label. */
  const Marker: string := " (ID: "

  /**
   * The label of a row whose key renders as `keyText`: it starts with the
   * display text, ends with a closing parenthesis, and is longer than the
   * display text by the marker, the key text and that parenthesis.  `LabelRoundTrip` shows
   * the parts can be read back.
   */
  function Label(display: string, keyText: string): (r: string)
    ensures |r| == |display| + |Marker| + |keyText| + 1
    ensures r[..|display|] == display
    ensures r[|r| - 1] == ')'
  {
    display + Marker + keyText + ")"
  }

  // ---------------------------------------------------------------------
  // Rendering integer keys the way an f-string renders a Python int
  // ---------------------------------------------------------------------

  predicate AllDigits(s: string)
  {
    forall i :: 0 <= i < |s| ==> '0' <= s[i] <= '9'
  }

  function DigitChar(d: nat): (c: char)
    requires d < 10
    ensures '0' <= c <= '9'
    ensures c as int - '0' as int == d
  {
    ('0' as int + d) as char
  }

  /** Decimal digits of a natural number, most significant first. */
  function NatText(n: nat): (r: string)
    ensures |r| > 0
    ensures AllDigits(r)
  {
    if n < 10 then [DigitChar(n)] else NatText(n / 10) + [DigitChar(n % 10)]
  }

  /** The value of a string of decimal digits. */
  function DigitsValue(s: string): nat
    requires AllDigits(s)
  {
    if |s| == 0 then 0 else DigitsValue(s[..|s| - 1]) * 10 + (s[|s| - 1] as int - '0' as int)
  }

  /** Reads an integer back from its decimal text. */
  function ParseIntText(s: string): (r: Option<int>)
  {
    if |s| > 1 && s[0] == '-' && AllDigits(s[1..]) then Some(-(DigitsValue(s[1..]) as int))
    else if |s| > 0 && AllDigits(s) then Some(DigitsValue(s))
    else None
  }

  lemma {:induction false} NatTextRoundTrip(n: nat)
    ensures DigitsValue(NatText(n)) == n
  {
    if n >= 10 {
      var s := NatText(n);
      assert s[..|s| - 1] == NatText(n / 10);
      NatTextRoundTrip(n / 10);
    }
  }

  /**
   * `str(n)` for a Python int: a minus sign for negatives, then the digits.
   * The text reads back to n, so two different ids never share a text, and
   * it never contains `(`.
   */
  function IntText(n: int): (r: string)
    ensures ParseIntText(r) == Some(n)
    ensures '(' !in r
  {
    if n < 0 then
      NatTextRoundTrip(-n);
      var r := "-" + NatText(-n);
      assert r[1..] == NatText(-n);
      assert forall i :: 1 <= i < |r| ==> r[i] == r[1..][i - 1];
      r
    else
      NatTextRoundTrip(n);
      NatText(n)
  }

  lemma IntTextInjective(a: int, b: int)
    ensures IntText(a) == IntText(b) ==> a == b
  {
  }

  // ---------------------------------------------------------------------
  // Reading a label back
  // ---------------------------------------------------------------------

  /** The position of the last occurrence of `c` in `s`, if any. */
  function LastIndexOf(s: string, c: char): (r: Option<nat>)
    ensures r.None? ==> c !in s
    ensures r.Some? ==> r.value < |s| && s[r.value] == c && c !in s[r.value + 1..]
  {
    if |s| == 0 then None
    else if s[|s| - 1] == c then Some(|s| - 1)
    else
      assert s == s[..|s| - 1] + [s[|s| - 1]];
      LastIndexOf(s[..|s| - 1], c)
  }

  /**
   * Splits a label into its display text and key text, cutting at the last
   * `" (ID: "`.  An integer key's text never contains `(`, so for such keys
   * the cut is unambiguous.  A key text holding `(` may not split back.
   */
  function ParseLabel(lbl: string): (r: Option<(string, string)>)
    ensures r.Some? ==> Label(r.value.0, r.value.1) == lbl && '(' !in r.value.1
  {
    if |lbl| == 0 || lbl[|lbl| - 1] != ')' then None
    else
      var body := lbl[..|lbl| - 1];
      assert lbl == body + ")";
      match LastIndexOf(body, '(')
      case None => None
      case Some(j) =>
        if 1 <= j && j + 5 <= |body| && body[j - 1..j + 5] == Marker then
          assert body == body[..j - 1] + body[j - 1..j + 5] + body[j + 5..];
          assert body[j + 5..] == body[j + 1..][4..];
          Some((body[..j - 1], body[j + 5..]))
        else None
  }

  /** Round trip: a label whose key text has no `(` parses back to its parts. */
  lemma LabelRoundTrip(display: string, keyText: string)
    requires '(' !in keyText
    ensures ParseLabel(Label(display, keyText)) == Some((display, keyText))
  {
    var lbl := Label(display, keyText);
    var body := display + Marker + keyText;
    assert lbl == body + ")";
    assert lbl[..|lbl| - 1] == body;
    var j := |display| + 1;
    assert body[j] == '(';
    assert body[j + 1..] == "ID: " + keyText;
    assert '(' !in body[j + 1..];
    var r := LastIndexOf(body, '(');
    assert r.Some?;
    assert forall k :: j < k < |body| ==> body[k] == body[j + 1..][k - j - 1];
    assert forall k :: r.value < k < |body| ==> body[k] == body[r.value + 1..][k - r.value - 1];
    assert r.value == j;
    assert body[j - 1..j + 5] == Marker;
    assert body[..j - 1] == display;
    assert body[j + 5..] == keyText;
  }

  /** Distinct (display, key text) pairs give distinct labels. */
  lemma LabelInjective(d1: string, k1: string, d2: string, k2: string)
    requires '(' !in k1 && '(' !in k2
    ensures Label(d1, k1) == Label(d2, k2) ==> d1 == d2 && k1 == k2
  {
    LabelRoundTrip(d1, k1);
    LabelRoundTrip(d2, k2);
  }

  // ---------------------------------------------------------------------
  // populate_combobox
  // ---------------------------------------------------------------------

  /**
   * Builds a picker from query rows in order: one label per row, and the
   * dictionary entry label -> key, a later row overwriting an earlier one
   * with the same label.  `show` renders a key as the f-string does.
   */
  function Populate<K>(rows: seq<Row<K>>, show: K -> string): (p: Picker<K>)
    ensures |p.values| == |rows|
    ensures forall i :: 0 <= i < |rows| ==> p.values[i] == Label(rows[i].display, show(rows[i].key))
    ensures forall l :: l in p.data <==> l in p.values
  {
    if |rows| == 0 then Picker([], map[])
    else
      var prev := Populate(rows[..|rows| - 1], show);
      var last := rows[|rows| - 1];
      var lbl := Label(last.display, show(last.key));
      Picker(prev.values + [lbl], prev.data[lbl := last.key])
  }

  /** No shown label is empty: each holds at least the marker. */
  lemma PickerLabelsNonEmpty<K>(rows: seq<Row<K>>, show: K -> string)
    ensures forall i :: 0 <= i < |rows| ==> Populate(rows, show).values[i] != ""
  {
  }

  /** Every dictionary entry was put there by some row with that label. */
  lemma {:induction false} PopulateEntriesFromRows<K>(rows: seq<Row<K>>, show: K -> string, l: string)
    requires l in Populate(rows, show).data
    ensures exists i :: 0 <= i < |rows| && Populate(rows, show).values[i] == l
                        && Populate(rows, show).data[l] == rows[i].key
  {
    var p := Populate(rows, show);
    var n := |rows|;
    if l == p.values[n - 1] {
      assert p.values[n - 1] == l && p.data[l] == rows[n - 1].key;
    } else {
      var prefix := rows[..n - 1];
      PopulateEntriesFromRows(prefix, show, l);
      var i :| 0 <= i < |prefix| && Populate(prefix, show).values[i] == l
               && Populate(prefix, show).data[l] == prefix[i].key;
      assert p.values[i] == l && p.data[l] == rows[i].key;
    }
  }

  /** A row whose label no later row repeats is what its label resolves to. */
  lemma {:induction false} PopulateLastWins<K>(rows: seq<Row<K>>, show: K -> string, i: nat)
    requires i < |rows|
    requires forall j :: i < j < |rows| ==> Populate(rows, show).values[j] != Populate(rows, show).values[i]
    ensures Populate(rows, show).data[Populate(rows, show).values[i]] == rows[i].key
  {
    var n := |rows|;
    if i < n - 1 {
      var prefix := rows[..n - 1];
      var p := Populate(rows, show);
      var q := Populate(prefix, show);
      assert forall j :: 0 <= j < n - 1 ==> q.values[j] == p.values[j];
      PopulateLastWins(prefix, show, i);
    }
  }

  /**
   * When no key text contains `(` and the rows' key texts are pairwise
   * distinct, choosing the i-th label resolves to the i-th row's key.
   */
  lemma PickerResolvesEachRow<K>(rows: seq<Row<K>>, show: K -> string)
    requires forall i :: 0 <= i < |rows| ==> '(' !in show(rows[i].key)
    requires forall i, j :: 0 <= i < j < |rows| ==> show(rows[i].key) != show(rows[j].key)
    ensures forall i :: 0 <= i < |rows| ==>
              Populate(rows, show).values[i] in Populate(rows, show).data &&
              Populate(rows, show).data[Populate(rows, show).values[i]] == rows[i].key
  {
    var p := Populate(rows, show);
    forall i | 0 <= i < |rows|
      ensures p.values[i] in p.data && p.data[p.values[i]] == rows[i].key
    {
      forall j | i < j < |rows|
        ensures p.values[j] != p.values[i]
      {
        LabelInjective(rows[j].display, show(rows[j].key), rows[i].display, show(rows[i].key));
      }
      PopulateLastWins(rows, show, i);
    }
  }

  /**
   * A picker over integer ids (customers, products, drivers): one label per
   * row, every shown label can be looked up, and every id it resolves to is
   * the id of some row.
   */
  function IdPicker(rows: seq<Row<int>>): (p: Picker<int>)
    ensures |p.values| == |rows|
    ensures forall i :: 0 <= i < |rows| ==> p.values[i] in p.data
    ensures forall l :: l in p.data ==> exists i :: 0 <= i < |rows| && p.data[l] == rows[i].key
  {
    var p := Populate(rows, IntText);
    assert forall l :: l in p.data ==> exists i :: 0 <= i < |rows| && p.data[l] == rows[i].key by {
      forall l | l in p.data ensures exists i :: 0 <= i < |rows| && p.data[l] == rows[i].key {
        PopulateEntriesFromRows(rows, IntText, l);
      }
    }
    p
  }

  /** Primary-key ids are distinct, so every label of an id picker resolves to its own row's id. */
  lemma IdPickerResolvesEachRow(rows: seq<Row<int>>)
    requires forall i, j :: 0 <= i < j < |rows| ==> rows[i].key != rows[j].key
    ensures forall i :: 0 <= i < |rows| ==>
              IdPicker(rows).values[i] in IdPicker(rows).data &&
              IdPicker(rows).data[IdPicker(rows).values[i]] == rows[i].key
  {
    forall i, j | 0 <= i < j < |rows| ensures IntText(rows[i].key) != IntText(rows[j].key) {
      IntTextInjective(rows[i].key, rows[j].key);
    }
    PickerResolvesEachRow(rows, IntText);
  }
}

=== FILE: outcomes.dfy ===
/**
 * The optional value and the outcome types shared by every module of the model.
 * `Option` stands for Python's `None`-or-value results (`dict.get`, a cancelled
 * dialog, an empty selection); `Result` for an operation that either produces
 * its new state or is refused with a reason.
 */
module Outcomes {

  datatype Option<+T> = None | Some(value: T)

  datatype Result<+T, +E> = Ok(value: T) | Err(error: E)
}

=== FILE: shop.dfy ===
/**
 * The customer tab: the shop view of the main warehouse
 * (`load_available_products`, app.py:195-220) and the client-held cart
 * (`add_to_cart`, `clear_cart`, the checks and cart serialisation of
 * `place_order`, app.py:222-299).
 *
 * The cart is a Python dict, which iterates in insertion order; the model
 * keeps that order next to the entries because `place_order` serialises the
 * cart in it.
 */
module Shop {
  import opened Outcomes
  import opened Inventory
  import Labels

  /** A price exactly as the shop shows it (two decimals), in hundredths; carried unchanged. */
  datatype Price = Price(cents: int)

  /** A PRODUCT row: name and unit price. */
  datatype Product = Product(name: string, price: Price)

  /** One line of the shop view: product, name, price and the stock shown for it. */
  datatype ShopRow = ShopRow(productId: ProductId, name: string, price: Price, stock: int)

  // ---------------------------------------------------------------------
  // The shop view
  // ---------------------------------------------------------------------

  /**
   * Products joined with their main-warehouse inventory row, keeping only
   * rows with a positive quantity.  The query has no ORDER BY, so the view
   * is a set.
   */
  function ShopView(products: map<ProductId, Product>, l: Ledger): (view: set<ShopRow>)
    ensures forall row :: row in view ==>
              && row.productId in products
              && row.name == products[row.productId].name
              && row.price == products[row.productId].price
              && row.stock == Stock(l, row.productId, MainWarehouse)
              && row.stock > 0
    ensures forall p :: p in products && Stock(l, p, MainWarehouse) > 0 ==>
              ShopRow(p, products[p].name, products[p].price, Stock(l, p, MainWarehouse)) in view
  {
    set p | p in products && (p, MainWarehouse) in l && l[(p, MainWarehouse)] > 0
      :: ShopRow(p, products[p].name, products[p].price, l[(p, MainWarehouse)])
  }

  /** The view lists each product at most once. */
  lemma ShopViewOneRowPerProduct(products: map<ProductId, Product>, l: Ledger, r1: ShopRow, r2: ShopRow)
    requires r1 in ShopView(products, l) && r2 in ShopView(products, l)
    ensures r1.productId == r2.productId ==> r1 == r2
  {
  }

  /**
   * Restocking a catalogued product with a positive amount at the main
   * warehouse, from a non-negative quantity, makes it appear in the shop with
   * the new total; the rows of every other product are unchanged.
   */
  lemma RestockShowsInShop(products: map<ProductId, Product>, l: Ledger, p: ProductId, q: int)
    requires p in products && Stock(l, p, MainWarehouse) >= 0 && q > 0
    ensures var view := ShopView(products, Upsert(l, p, MainWarehouse, q));
            ShopRow(p, products[p].name, products[p].price, Stock(l, p, MainWarehouse) + q) in view
    ensures forall row: ShopRow :: row.productId != p ==>
              (row in ShopView(products, Upsert(l, p, MainWarehouse, q)) <==> row in ShopView(products, l))
  {
  }

  /** Restocking another warehouse does not change what the shop shows. */
  lemma OtherWarehouseRestockInvisible(products: map<ProductId, Product>, l: Ledger,
                                       p: ProductId, w: WarehouseId, q: int)
    requires w != MainWarehouse
    ensures ShopView(products, Upsert(l, p, w, q)) == ShopView(products, l)
  {
  }

  // ---------------------------------------------------------------------
  // The cart
  // ---------------------------------------------------------------------

  /** A cart entry: name and price as shown when first added, and the quantity wanted. */
  datatype Item = Item(name: string, price: Price, quantity: int)

  /** The cart dict: its keys in insertion order, and its entries. */
  datatype Cart = Cart(order: seq<ProductId>, items: map<ProductId, Item>)

  predicate Distinct(s: seq<ProductId>)
  {
    forall i, j :: 0 <= i < j < |s| ==> s[i] != s[j]
  }

  /** The dict's shape: each key listed once, in the order exactly the keys, every quantity at least 1. */
  ghost predicate Valid(c: Cart)
  {
    && Distinct(c.order)
    && (forall p :: p in c.items <==> p in c.order)
    && (forall p :: p in c.items ==> c.items[p].quantity >= 1)
  }

  /** The quantity of p in the cart, 0 when it has no entry. */
  function InCart(c: Cart, p: ProductId): int
  {
    if p in c.items then c.items[p].quantity else 0
  }

  /** Every entry other than p is present before exactly when after, with the same contents. */
  ghost predicate OthersUnchanged(c: Cart, c': Cart, p: ProductId)
  {
    forall x :: x != p ==> (x in c'.items <==> x in c.items) && (x in c.items ==> c'.items[x] == c.items[x])
  }

  /** `clear_cart`: the cart becomes the empty dict. */
  function ClearCart(): (c: Cart)
    ensures Valid(c)
    ensures forall p :: p !in c.items && InCart(c, p) == 0
  {
    Cart([], map[])
  }

  datatype AddRefusal =
    | NoProductSelected                     // nothing focused in the shop view
    | DialogCancelled                       // the quantity dialog returned None
    | NotEnoughStock(inCart: int, stock: int)  // cart quantity plus request exceeds the stock shown

  datatype AddOutcome = Added(cart: Cart) | Refused(reason: AddRefusal)

  /** The cart after an add: the new one, or the old one when refused. */
  function CartAfter(c: Cart, outcome: AddOutcome): Cart
  {
    if outcome.Added? then outcome.cart else c
  }

  /**
   * What the quantity dialog (`askinteger` with `minvalue=1, maxvalue=stock`)
   * can hand back: None when cancelled, otherwise a whole number in 1..stock.
   */
  predicate DialogAnswer(answer: Option<int>, stock: int)
  {
    answer.Some? ==> 1 <= answer.value <= stock
  }

  /**
   * `add_to_cart`: a product not yet in the cart is added with the requested
   * quantity, with the name and price the shop shows; a product already in it
   * has the request added to its quantity, provided the total stays within
   * the stock shown, and is otherwise refused with the cart untouched.
   */
  function AddToCart(c: Cart, selected: Option<ShopRow>, answer: Option<int>): (r: AddOutcome)
    requires selected.Some? ==> DialogAnswer(answer, selected.value.stock)
    ensures selected.None? ==> r == Refused(NoProductSelected)
    ensures selected.Some? && answer.None? ==> r == Refused(DialogCancelled)
    ensures r.Added? <==>
              selected.Some? && answer.Some? &&
              InCart(c, selected.value.productId) + answer.value <= selected.value.stock
    ensures selected.Some? && answer.Some? && selected.value.productId in c.items &&
            InCart(c, selected.value.productId) + answer.value > selected.value.stock ==>
              r == Refused(NotEnoughStock(InCart(c, selected.value.productId), selected.value.stock))
    ensures r.Added? ==>
              var row := selected.value;
              && row.productId in r.cart.items
              && InCart(r.cart, row.productId) == InCart(c, row.productId) + answer.value
              && InCart(r.cart, row.productId) <= row.stock
              && OthersUnchanged(c, r.cart, row.productId)
    ensures r.Added? && selected.value.productId !in c.items ==>
              var row := selected.value;
              && r.cart.items[row.productId] == Item(row.name, row.price, answer.value)
              && r.cart.order == c.order + [row.productId]
    ensures r.Added? && selected.value.productId in c.items ==>
              var row := selected.value;
              && r.cart.items[row.productId].name == c.items[row.productId].name
              && r.cart.items[row.productId].price == c.items[row.productId].price
              && r.cart.order == c.order
  {
    match selected
    case None => Refused(NoProductSelected)
    case Some(row) =>
      match answer
      case None => Refused(DialogCancelled)
      case Some(q) =>
        if row.productId in c.items then
          var newQty := c.items[row.productId].quantity + q;
          if newQty > row.stock then Refused(NotEnoughStock(c.items[row.productId].quantity, row.stock))
          else Added(Cart(c.order, c.items[row.productId := c.items[row.productId].(quantity := newQty)]))
        else
          Added(Cart(c.order + [row.productId], c.items[row.productId := Item(row.name, row.price, q)]))
  }

  /** Every add, accepted or refused, keeps the cart's shape and its quantities at least 1. */
  lemma AddPreservesValid(c: Cart, selected: Option<ShopRow>, answer: Option<int>)
    requires Valid(c)
    requires selected.Some? ==> DialogAnswer(answer, selected.value.stock)
    ensures Valid(CartAfter(c, AddToCart(c, selected, answer)))
  {
  }

  /** A new product adds exactly one entry; a repeated product keeps the entry count. */
  lemma AddEntryCount(c: Cart, selected: Option<ShopRow>, answer: Option<int>)
    requires selected.Some? ==> DialogAnswer(answer, selected.value.stock)
    ensures var r := AddToCart(c, selected, answer);
            r.Added? ==>
              |r.cart.items| == |c.items| + (if selected.value.productId in c.items then 0 else 1)
  {
  }

  /**
   * Adding the same shop row twice, starting without it, succeeds the second
   * time exactly when the two requests together fit in the stock shown, and
   * then the cart holds their sum.
   */
  lemma TwoAddsOfOneProduct(c: Cart, row: ShopRow, a: int, b: int)
    requires row.productId !in c.items
    requires 1 <= a <= row.stock && 1 <= b <= row.stock
    ensures AddToCart(c, Some(row), Some(a)).Added?
    ensures var c1 := AddToCart(c, Some(row), Some(a)).cart;
            && (AddToCart(c1, Some(row), Some(b)).Added? <==> a + b <= row.stock)
            && (a + b <= row.stock ==> InCart(AddToCart(c1, Some(row), Some(b)).cart, row.productId) == a + b)
            && (a + b > row.stock ==> CartAfter(c1, AddToCart(c1, Some(row), Some(b))) == c1)
  {
  }

  // ---------------------------------------------------------------------
  // Serialising the cart for the order request
  // ---------------------------------------------------------------------

  /** One element of the order request: a product id and a quantity, no price. */
  datatype Line = Line(productId: ProductId, quantity: int)

  /** One line per key, in the keys' order. */
  function Lines(keys: seq<ProductId>, items: map<ProductId, Item>): (r: seq<Line>)
    requires forall i :: 0 <= i < |keys| ==> keys[i] in items
    ensures |r| == |keys|
    ensures forall i :: 0 <= i < |keys| ==> r[i].productId == keys[i] && r[i].quantity == items[keys[i]].quantity
  {
    if |keys| == 0 then []
    else Lines(keys[..|keys| - 1], items) + [Line(keys[|keys| - 1], items[keys[|keys| - 1]].quantity)]
  }

  /**
   * The cart as the list of {product_id, quantity} pairs, in dict order: one
   * line per entry, the i-th naming the i-th key with its quantity.
   */
  function Serialise(c: Cart): (r: seq<Line>)
    requires Valid(c)
    ensures |r| == |c.items| && |r| == |c.order|
    ensures forall i :: 0 <= i < |c.order| ==>
              r[i].productId == c.order[i] && c.order[i] in c.items && r[i].quantity == c.items[c.order[i]].quantity
  {
    assert forall i :: 0 <= i < |c.order| ==> c.order[i] in c.order;
    assert forall p :: p in c.order ==> p in c.items;
    DistinctElementsCount(c.order);
    assert forall x :: x in c.items.Keys <==> x in Elements(c.order);
    assert c.items.Keys == Elements(c.order);
    Lines(c.order, c.items)
  }

  /** The set of elements of a sequence. */
  function Elements(s: seq<ProductId>): (r: set<ProductId>)
    ensures forall x :: x in r <==> x in s
  {
    set x | x in s
  }

  lemma {:induction false} DistinctElementsCount(s: seq<ProductId>)
    requires Distinct(s)
    ensures |Elements(s)| == |s|
  {
    if |s| > 0 {
      var prefix := s[..|s| - 1];
      var last := s[|s| - 1];
      assert s == prefix + [last];
      assert last !in prefix;
      assert Elements(s) == Elements(prefix) + {last};
      DistinctElementsCount(prefix);
    }
  }

  /** The quantities a list of lines asks for, later lines overriding earlier ones. */
  function Quantities(lines: seq<Line>): map<ProductId, int>
  {
    if |lines| == 0 then map[]
    else Quantities(lines[..|lines| - 1])[lines[|lines| - 1].productId := lines[|lines| - 1].quantity]
  }

  /** The quantity column of the cart. */
  function CartQuantities(c: Cart): map<ProductId, int>
  {
    map p | p in c.items :: c.items[p].quantity
  }

  lemma {:induction false} LinesQuantities(keys: seq<ProductId>, items: map<ProductId, Item>)
    requires forall i :: 0 <= i < |keys| ==> keys[i] in items
    ensures Quantities(Lines(keys, items)) == map p | p in keys :: items[p].quantity
  {
    if |keys| > 0 {
      var prefix := keys[..|keys| - 1];
      var last := keys[|keys| - 1];
      var lines := Lines(keys, items);
      assert lines[..|lines| - 1] == Lines(prefix, items);
      LinesQuantities(prefix, items);
      assert keys == prefix + [last];
      assert forall x :: x in keys <==> x in prefix || x == last;
    }
  }

  /**
   * Each line names a cart entry and carries that entry's quantity, no two
   * lines name the same product, and every entry has a line.
   */
  lemma SerialiseLinesMatchEntries(c: Cart)
    requires Valid(c)
    ensures forall i :: 0 <= i < |Serialise(c)| ==>
              Serialise(c)[i].productId in c.items &&
              Serialise(c)[i].quantity == c.items[Serialise(c)[i].productId].quantity
    ensures forall i, j :: 0 <= i < j < |Serialise(c)| ==> Serialise(c)[i].productId != Serialise(c)[j].productId
    ensures forall p :: p in c.items ==> exists i :: 0 <= i < |Serialise(c)| && Serialise(c)[i].productId == p
  {
    var s := Serialise(c);
    assert forall i :: 0 <= i < |s| ==> s[i].productId == c.order[i];
    assert forall i :: 0 <= i < |c.order| ==> c.order[i] in c.order;
    forall p | p in c.items ensures exists i :: 0 <= i < |s| && s[i].productId == p {
      var i :| 0 <= i < |c.order| && c.order[i] == p;
      assert s[i].productId == p;
    }
  }

  /** Round trip: reading the quantities back from the serialised cart gives the cart's quantities. */
  lemma SerialiseRoundTrip(c: Cart)
    requires Valid(c)
    ensures Quantities(Serialise(c)) == CartQuantities(c)
  {
    assert forall i :: 0 <= i < |c.order| ==> c.order[i] in c.order;
    LinesQuantities(c.order, c.items);
    var m := map p | p in c.order :: c.items[p].quantity;
    assert forall x :: x in m <==> x in c.items;
    assert m.Keys == CartQuantities(c).Keys;
  }

  // ---------------------------------------------------------------------
  // place_order, up to the store call
  // ---------------------------------------------------------------------

  datatype OrderError =
    | CartIsEmpty         // refused before any store access
    | NoCustomerSelected  // refused before any store access

  /**
   * What `place_order` hands to the `PlaceNewOrder` stored procedure: the
   * customer id (`dict.get`, so possibly None), the main warehouse, and the
   * serialised cart.
   */
  datatype OrderRequest = OrderRequest(customer: Option<int>, warehouse: WarehouseId, lines: seq<Line>)

  function PlaceOrder(c: Cart, customerText: string, customerData: map<string, int>): (r: Result<OrderRequest, OrderError>)
    requires Valid(c)
    ensures |c.items| == 0 ==> r == Err(CartIsEmpty)
    ensures |c.items| > 0 && customerText == "" ==> r == Err(NoCustomerSelected)
    ensures r.Ok? <==> |c.items| > 0 && customerText != ""
    ensures r.Ok? ==> r.value.warehouse == MainWarehouse && r.value.lines == Serialise(c)
    ensures r.Ok? ==> |r.value.lines| == |c.items|
    ensures r.Ok? ==> (r.value.customer.Some? <==> customerText in customerData)
    ensures r.Ok? && customerText in customerData ==> r.value.customer.value == customerData[customerText]
  {
    if |c.items| == 0 then Err(CartIsEmpty)
    else if customerText == "" then Err(NoCustomerSelected)
    else
      var customer := if customerText in customerData then Some(customerData[customerText]) else None;
      Ok(OrderRequest(customer, MainWarehouse, Serialise(c)))
  }

  /** A cleared cart cannot be ordered, whoever the customer. */
  lemma OrderAfterClearRefused(customerText: string, customerData: map<string, int>)
    ensures PlaceOrder(ClearCart(), customerText, customerData) == Err(CartIsEmpty)
  {
  }

  /**
   * With the customer picker filled from rows with distinct ids, ordering a
   * non-empty cart for the i-th label sends the i-th customer's id.
   */
  lemma OrderNamesPickedCustomer(c: Cart, rows: seq<Labels.Row<int>>, i: nat)
    requires Valid(c) && |c.items| > 0
    requires i < |rows|
    requires forall a, b :: 0 <= a < b < |rows| ==> rows[a].key != rows[b].key
    ensures var picker := Labels.IdPicker(rows);
            var r := PlaceOrder(c, picker.values[i], picker.data);
            r.Ok? && r.value.customer == Some(rows[i].key) && r.value.lines == Serialise(c)
  {
    Labels.IdPickerResolvesEachRow(rows);
    var picker := Labels.IdPicker(rows);
    assert |picker.values[i]| > 0 by {
      assert picker.values[i] == Labels.Label(rows[i].display, Labels.IntText(rows[i].key));
    }
  }

  /**
   * The cart after `place_order`: emptied only once the store has committed
   * the order; kept as it was after a refusal or a store error.
   */
  function CartAfterOrder(c: Cart, request: Result<OrderRequest, OrderError>, committed: bool): (c': Cart)
    ensures request.Ok? && committed ==> |c'.items| == 0 && Valid(c')
    ensures !(request.Ok? && committed) ==> c' == c
  {
    if request.Ok? && committed then ClearCart() else c
  }

  /**
   * A committed order consumes the cart, so placing it again is refused as
   * empty; after a refusal or a store error the kept cart yields the same
   * outcome again.
   */
  lemma OrderConsumesCart(c: Cart, customerText: string, customerData: map<string, int>, committed: bool)
    requires Valid(c)
    ensures var r := PlaceOrder(c, customerText, customerData);
            var c' := CartAfterOrder(c, r, committed);
            && Valid(c')
            && (r.Ok? && committed ==> PlaceOrder(c', customerText, customerData) == Err(CartIsEmpty))
            && (!(r.Ok? && committed) ==> PlaceOrder(c', customerText, customerData) == r)
  {
  }
}
